=== FILE: README.md ===
# Budget aggregation, modelled in Dafny

This project models the aggregation core of `budget.py`, a small personal
budget tool that reads a CSV file of transactions and groups them.

A CSV reader is modelled as a sequence of rows, each row a sequence of
strings. The first row is a header. Every later row is a transaction.
`_aggregate_by_key` picks one column (`Fields`: date 0, account 1,
description 2, category 3, tags 4) as the group key. It adds the absolute
value of the row's last column to that key's running total. For the date
column, the key is the English month abbreviation of the `YYYY-MM-DD`
string. Five public groupings call it with a fixed column. The category
grouping also sorts the result by total, largest first.

Modules:

- `Outcomes`: `Option` and `Result`, which turn Python exceptions into values.
- `Text`: `str.split` on one character, and `int()` on digit strings.
- `Months`: the thirteen-entry `calendar.month_abbr` table and `get_month_name`.
- `Assoc`: the `defaultdict(float)`. It is an association list of
  `Entry(key, amount)` kept in first-insertion order, which is the iteration
  order of a Python dict.
- `Ranking`: `sorted(items, key=amount, reverse=True)`. This is a stable
  descending insertion sort, because Python's sort stays stable when
  `reverse=True`.
- `Budget`: the row key, one row's contribution, the aggregation pass, and
  the five public groupings.

The model has no preconditions on the reader. Every way the Python code can
raise is a `Budget.Error` value:

- `MissingHeader`: `next()` on an empty reader.
- `MissingField`: `row[index]` past the end of the row.
- `BadDate`: no second `-`-separated piece, a piece that is not a number, or
  a month number past 12.
- `BadAmount`: `float()` rejects the amount.

Errors are checked in the order of the loop body. The key comes first and
the amount second. The pass stops at the first failing row.

The row-by-row meaning of the aggregate is defined independently:

- `WellFormed`: every data row contributes.
- `SeenIn`: some data row carries the key.
- `SumFor`: the sum of |amount| over the rows that carry a key.
- `SumAll`: the sum of |amount| over the rows that contribute to one grouping.
- `AbsSum`: the sum of |amount| over the rows whose amount parses, with no
  grouping column at all.
- `FirstIndex`: the first row that carries a key.

The lemmas connect the pass to these definitions.

Two consequences of the source that are easy to miss:

- Line 59 adds `abs(float(amount))`. Every total is therefore a sum of
  absolute values, and no total is negative.
- `calendar.month_abbr[0]` is the empty string. A date whose month piece
  reads as 0 (for example `2024-00-01`) is therefore grouped under the key
  `""` and raises nothing. Only a month number above 12 raises.

## Model

| member | source | states |
|---|---|---|
| `Text.Split` | budget.py:25 | `date_string.split("-")` always yields at least one piece, and no piece contains the separator. |
| `Text.JoinSplit` | budget.py:25 | Joining the pieces of a split with the separator gives back the original string, so the split loses nothing. |
| `Text.SplitJoin` | budget.py:25 | Joining separator-free pieces and then splitting gives back the same pieces. |
| `Text.ParseNat` | budget.py:25 | `int(piece)` succeeds exactly on a non-empty string of ASCII digits no longer than 4300 characters, the default digit limit of CPython 3.11 and later. |
| `Text.ParseDigits` | budget.py:25 | `int()` of a number's decimal rendering gives that number back, unless the rendering is longer than the digit limit. |
| `Text.LeadingZero` | budget.py:25 | A leading zero does not change what `int()` reads from a non-empty digit string, so `"03"` and `"3"` name the same month. The zero counts toward the digit limit, so a string already at the limit is refused once it is prefixed. |
| `Text.ParsePad2` | budget.py:25 | The two-digit zero-padded month field of an ISO date reads back as its number. |
| `Months.MonthAbbr` | budget.py:26 | `calendar.month_abbr[m]` exists exactly for m ≤ 12. Entry 0 is the empty string, and entries 1 to 12 are three-letter names. |
| `Months.MonthAbbrInjective` | budget.py:26 | Two month numbers up to 12 have the same abbreviation only when they are equal. |
| `Months.GetMonthName` | budget.py:24-26 | The name is found exactly when there is a second piece, it is a number, and the number is at most 12. A name that is found is an entry of the month table. |
| `Months.MonthNameIgnoresYearAndDay` | budget.py:24-26 | The month key depends only on the second piece, not on the year or the day. |
| `Months.IsoDateMonthName` | budget.py:24-26 | An ISO date with month m from 0 to 12 gets table entry m: the m-th abbreviation for 1 to 12, and the empty string for `"00"`. |
| `Months.IsoDatesShareKeyIffSameMonth` | budget.py:24-26 | Two ISO dates with months from 0 to 12 get the same key if and only if their months are equal. Years are merged, distinct months never are. |
| `Assoc.Add` | budget.py:59 | `aggregated[field] += a` appends a new key at the end and leaves an existing key in place. The key's total grows by exactly `a`, and every other key's total is unchanged. |
| `Assoc.AddTotal` | budget.py:59 | One `+=` raises the sum of all totals by exactly the amount added. |
| `Assoc.AddKeepsNonNegative` | budget.py:59 | Adding a non-negative amount keeps every total non-negative. |
| `Assoc.AddKeepsKeysDistinct` | budget.py:59 | The dict never holds a key twice. |
| `Assoc.LookupAbsent` | budget.py:51 | A key that was never added reads as 0.0, the `defaultdict(float)` default. |
| `Budget.RowKey` | budget.py:55-58 | A row that is too short raises `IndexError`. A plain column's key is the cell itself. A date cell's key is `get_month_name` of that cell, an entry of the month table, and the row fails with `BadDate` exactly when `get_month_name` raises. |
| `Budget.Contribution` | budget.py:55-59 | A row contributes exactly when its key is found and its last cell parses. The key error is reported before the amount error. The amount added is x or -x, and it is never negative. |
| `Budget.AggregateRows` | budget.py:54-59 | The `for row in csvreader` loop. It never raises the header's StopIteration, and each row adds at most one key. Its full meaning is given by the `AggregateRows*` lemmas below. |
| `Budget.AggregateByKey` | budget.py:50-60 | An empty reader raises at `next()`. A reader holding only the header gives an empty dict. |
| `Budget.AggregateRowsSucceedsIffWellFormed` | budget.py:54-59 | The loop completes exactly when every data row contributes. |
| `Budget.AggregateRowsFirstError` | budget.py:54-59 | A failing pass raises the error of some row. Every row before that one contributed. |
| `Budget.AggregateRowsKeys` | budget.py:54-59 | The keys are distinct, and they are exactly the keys some data row carries. |
| `Budget.AggregateRowsTotals` | budget.py:54-59 | Every key's total equals the sum of absolute amount over exactly the rows that carry that key. |
| `Budget.AggregateRowsConserves` | budget.py:54-59 | The totals add up to the sum of absolute amount over all data rows. |
| `Budget.SumAllIsIndexFree` | budget.py:54-59 | When every data row contributes, the sum over the contributing rows does not depend on the grouping column: it is the sum of absolute amount over the rows. |
| `Budget.AggregateRowsNonNegative` | budget.py:54-59 | No total is negative. |
| `Budget.AggregateRowsFirstOccurrenceOrder` | budget.py:51-59 | The dict lists its keys in the order of their first appearance among the data rows. |
| `Budget.AggregateByKeyFacts` | budget.py:50-60 | With a header present, the pass succeeds exactly when every data row contributes. A failing pass reports the error of the first data row that does not contribute. On success the keys are distinct, in first-appearance order, and exactly those the data rows carry. The totals are non-negative per-key sums of absolute amount, and they add up to the sum over all data rows. |
| `Budget.RegroupingKeepsGrandTotal` | budget.py:50-60 | Two successful passes over the same reader, on any two columns, have the same grand total, the sum of absolute amount over the data rows. |
| `Budget.HeaderIsIgnored` | budget.py:52-54 | The header row contributes nothing: replacing it never changes the result. |
| `Budget.PlainKeysAreFieldValues` | budget.py:55-59 | Outside the date grouping, a key is exactly the selected cell of some data row. |
| `Budget.MonthKeysAreMonthNames` | budget.py:55-59 | In the date grouping, a key is exactly the month name of some data row's date, and so an entry of the month table. |
| `Budget.AggregateByMonth` | budget.py:34-35 | `_aggregate_by_key` on column 0. It succeeds exactly when there is a header and every data row contributes, and on failure it raises the same error as `_aggregate_by_key`. Column 0 is grouped by month name. The keys are the month names of the reader's data rows, each an entry of the month table. Each total is that month's sum of absolute amount. On success the keys are distinct and listed in order of first appearance, every total is non-negative, and the totals add up to the sum of absolute amount over all data rows. That sum is `AbsSum` of the data rows, which is the same for every grouping of the reader. |
| `Budget.AggregateByColumn` | budget.py:38-47 | `_aggregate_by_key` on a fixed plain column. It succeeds exactly when there is a header and every data row contributes, and on failure it raises the same error as `_aggregate_by_key`. A plain column is grouped by its cell values. The keys are exactly the cells found in data rows, and each total is that cell value's sum of absolute amount. On success the keys are distinct and listed in order of first appearance, every total is non-negative, and the totals add up to the sum of absolute amount over all data rows. That sum is `AbsSum` of the data rows, which is the same for every grouping of the reader. |
| `Budget.AggregateByAccount` | budget.py:38-39 | `_aggregate_by_key` on column 1. It succeeds exactly when there is a header and every data row contributes, and on failure it raises the same error. The keys are exactly the column-1 cells of the data rows, and each total is that cell value's sum of absolute amount. On success the keys are distinct and listed in order of first appearance, every total is non-negative, and the totals add up to the sum of absolute amount over all data rows. That sum is `AbsSum` of the data rows, which is the same for every grouping of the reader. |
| `Budget.AggregateByTransaction` | budget.py:42-43 | `_aggregate_by_key` on column 2. It succeeds exactly when there is a header and every data row contributes, and on failure it raises the same error. The keys are exactly the column-2 cells of the data rows, and each total is that cell value's sum of absolute amount. On success the keys are distinct and listed in order of first appearance, every total is non-negative, and the totals add up to the sum of absolute amount over all data rows. That sum is `AbsSum` of the data rows, which is the same for every grouping of the reader. |
| `Budget.AggregateByTags` | budget.py:46-47 | `_aggregate_by_key` on column 4. It succeeds exactly when there is a header and every data row contributes, and on failure it raises the same error. The keys are exactly the column-4 cells of the data rows, and each total is that cell value's sum of absolute amount. On success the keys are distinct and listed in order of first appearance, every total is non-negative, and the totals add up to the sum of absolute amount over all data rows. That sum is `AbsSum` of the data rows, which is the same for every grouping of the reader. |
| `Ranking.SortDescending` | budget.py:31 | The result is ordered from largest to smallest total, and it is a permutation of the input. |
| `Ranking.InsertWithAmount` | budget.py:31 | Inserting one entry adds it at the end of the run of entries with its amount. No other run changes. |
| `Ranking.SortIsStable` | budget.py:31 | For every total, the entries carrying it keep their input order, because Python's sort is stable even with `reverse=True`. |
| `Ranking.SortKeepsKeysDistinct` | budget.py:31 | Sorted items with distinct keys keep distinct keys, so `dict(...)` of them drops nothing. |
| `Ranking.PermutationKeepsLookup` | budget.py:31 | A permutation of a dict's items stores the same total under every key. |
| `Ranking.SortKeepsTotal` | budget.py:31 | Sorting the items keeps the sum of the totals. |
| `Budget.AggregateByCategory` | budget.py:29-31 | The grouping reads column 3. It fails exactly when the plain category aggregate fails, with the same error. On success it holds the same entries and the same total per key, ordered from largest to smallest, with ties in first-appearance order. Its totals add up to `AbsSum` of the data rows, the grand total of every other grouping. |

## Left out

- Reading the file (`read_file`), `plot_bar`, `main` and the matplotlib
  calls are input/output and drawing. The reader is a parameter, a sequence
  of rows already split by the CSV module.
- CSV parsing itself (quoting, delimiters) belongs to Python's `csv` module
  and is not part of this model. Rows arrive already split.
- `float()` is not modelled. It is a parameter `parse: string -> Option<real>`,
  where None stands for `ValueError`. Totals are exact reals, so
  floating-point rounding is left out.
- NaN and infinite amounts are not modelled. Python's `float()` accepts
  `"nan"` and `"inf"`, and a float sum can overflow to infinity. The model's
  `parse` yields only real numbers. With a NaN total, Python's sort has no
  defined order and "no total is negative" does not hold, so neither the
  ordering nor the non-negativity results cover that case.
- `Text.ParseNat`: accepts ASCII digit strings only. Python's `int()` also
  accepts surrounding whitespace, a sign, underscores between digits and
  non-ASCII decimal digits. A month piece such as `" 3"` or `"+3"` is
  therefore a `BadDate` in the model but March in Python. The digit limit is
  fixed at CPython's default of 4300. The model does not follow a limit
  changed with `sys.set_int_max_str_digits`, or the absence of any limit
  before Python 3.11.
- `Months.GetMonthName`: the table is the English (C-locale) one.
  `calendar.month_abbr` follows the process locale, so the model does not
  cover other locales.
- `Budget.RowKey`: the key column is a non-negative index. Python would also
  accept a negative `index`, but every caller passes a `Fields` value from 0
  to 4.
- `Budget.AggregateByKey`: the Python function consumes a live iterator. The
  model works on the whole sequence and does not model a reader that is
  exhausted or shared between two calls.
- `filter_by_month`, `apply_rules` and `calculate_summary_data` are not
  defined in `budget.py` and are not part of this model. That includes the
  income/expense split and the net cash flow.

=== FILE: assoc.dfy ===
/** An insertion-ordered dictionary from string keys to real totals, as a
    sequence of entries: the model of the `defaultdict(float)` that the
    aggregator fills, whose iteration order is first-insertion order. */
module Assoc {

  datatype Entry = Entry(key: string, amount: real)

  function Keys(es: seq<Entry>): (ks: seq<string>)
    ensures |ks| == |es|
    ensures forall i | 0 <= i < |es| :: ks[i] == es[i].key
  {
    if |es| == 0 then [] else [es[0].key] + Keys(es[1..])
  }

  /** No key appears twice, as in any Python dict. */
  predicate DistinctKeys(es: seq<Entry>) {
    forall i, j | 0 <= i < j < |es| :: es[i].key != es[j].key
  }

  /** `d.get(k, 0.0)`: the amount stored under `k`, zero when `k` is absent. */
  function Lookup(es: seq<Entry>, k: string): real {
    if |es| == 0 then 0.0
    else if es[0].key == k then es[0].amount
    else Lookup(es[1..], k)
  }

  /** `sum(d.values())`. */
  function Total(es: seq<Entry>): real {
    if |es| == 0 then 0.0 else es[0].amount + Total(es[1..])
  }

  /** `d[k] += a` on a `defaultdict(float)`: a missing key is appended with
      total `a`, a present key keeps its place and grows by `a`, and no
      other key's total changes. */
  function Add(es: seq<Entry>, k: string, a: real): (r: seq<Entry>)
    ensures Keys(r) == if k in Keys(es) then Keys(es) else Keys(es) + [k]
    ensures Lookup(r, k) == Lookup(es, k) + a
    ensures forall k' | k' != k :: Lookup(r, k') == Lookup(es, k')
  {
    if |es| == 0 then [Entry(k, a)]
    else if es[0].key == k then [Entry(k, es[0].amount + a)] + es[1..]
    else [es[0]] + Add(es[1..], k, a)
  }

  /** The sum of all totals splits over a concatenation. */
  lemma {:induction false} TotalAppend(a: seq<Entry>, b: seq<Entry>)
    ensures Total(a + b) == Total(a) + Total(b)
  {
    if |a| > 0 {
      assert (a + b)[1..] == a[1..] + b;
      TotalAppend(a[1..], b);
    } else {
      assert a + b == b;
    }
  }

  /** Appending an entry adds its amount to the sum of all totals. */
  lemma TotalSnoc(s: seq<Entry>, x: Entry)
    ensures Total(s + [x]) == Total(s) + x.amount
  {
    TotalAppend(s, [x]);
  }

  /** `d[k] += a` raises the sum of all totals by exactly `a`. */
  lemma {:induction false} AddTotal(es: seq<Entry>, k: string, a: real)
    ensures Total(Add(es, k, a)) == Total(es) + a
  {
    if |es| > 0 && es[0].key != k {
      AddTotal(es[1..], k, a);
    }
  }

  /** Adding a non-negative amount keeps every total non-negative. */
  lemma {:induction false} AddKeepsNonNegative(es: seq<Entry>, k: string, a: real)
    requires forall i | 0 <= i < |es| :: es[i].amount >= 0.0
    requires a >= 0.0
    ensures forall i | 0 <= i < |Add(es, k, a)| :: Add(es, k, a)[i].amount >= 0.0
  {
    if |es| > 0 && es[0].key != k {
      AddKeepsNonNegative(es[1..], k, a);
    }
  }

  /** `d[k] += a` moves no key: existing keys keep their positions and a new
      key, if any, lands at the end. */
  lemma AddKeepsPositions(es: seq<Entry>, k: string, a: real)
    ensures var r := Add(es, k, a);
      && (forall i | 0 <= i < |es| :: r[i].key == es[i].key)
      && (k in Keys(es) ==> |r| == |es|)
      && (k !in Keys(es) ==> |r| == |es| + 1 && r[|es|].key == k)
  {
    var r := Add(es, k, a);
    assert |Keys(r)| == |r|;
    forall i | 0 <= i < |es|
      ensures r[i].key == es[i].key
    {
      assert Keys(r)[i] == Keys(es)[i];
    }
    if k !in Keys(es) {
      assert Keys(r)[|es|] == k;
    }
  }

  /** Adding a key keeps the keys distinct. */
  lemma AddKeepsKeysDistinct(es: seq<Entry>, k: string, a: real)
    requires DistinctKeys(es)
    ensures DistinctKeys(Add(es, k, a))
  {
    var r := Add(es, k, a);
    forall i, j | 0 <= i < j < |r|
      ensures r[i].key != r[j].key
    {
      assert r[i].key == Keys(r)[i] && r[j].key == Keys(r)[j];
      if j < |es| {
        assert Keys(r)[i] == es[i].key && Keys(r)[j] == es[j].key;
      } else {
        assert k !in Keys(es) && Keys(r)[j] == k && Keys(r)[i] == Keys(es)[i];
      }
    }
  }

  /** With distinct keys, looking up an entry's key finds that entry's amount. */
  lemma {:induction false} LookupFindsEntry(es: seq<Entry>, i: nat)
    requires DistinctKeys(es) && i < |es|
    ensures Lookup(es, es[i].key) == es[i].amount
  {
    if i > 0 {
      LookupFindsEntry(es[1..], i - 1);
    }
  }

  /** A key that is absent looks up as zero, as in `defaultdict(float)`. */
  lemma {:induction false} LookupAbsent(es: seq<Entry>, k: string)
    requires k !in Keys(es)
    ensures Lookup(es, k) == 0.0
  {
    if |es| > 0 {
      assert Keys(es[1..]) == Keys(es)[1..];
      LookupAbsent(es[1..], k);
    }
  }
}

=== FILE: budget.dfy ===
/** The group-and-sum aggregator of budget.py. A reader is the sequence of
    CSV rows, the first of which is a header; every later row is a
    transaction whose selected column gives the group key and whose last
    column gives the amount. Each group's total is the sum of the absolute
    values of its amounts. */
module Budget {
  import opened Outcomes
  import opened Months
  import opened Assoc
  import opened Ranking

  /** The `Fields` enumeration: the column each grouping reads. */
  datatype Field = Date | Account | Description | Category | Tags {
    function Index(): nat {
      match this
      case Date => 0
      case Account => 1
      case Description => 2
      case Category => 3
      case Tags => 4
    }
  }

  type Row = seq<string>

  /** `float(s)`: None where Python raises ValueError. */
  type AmountParser = string -> Option<real>

  /** Why an aggregation pass aborts; each is an uncaught Python exception. */
  datatype Error =
    | MissingHeader  // `next(csvreader)` on an empty reader: StopIteration
    | MissingField   // `row[index]` beyond the row: IndexError
    | BadDate        // `get_month_name` raises IndexError or ValueError
    | BadAmount      // `float(amount)` raises ValueError

  function Abs(x: real): real {
    if x < 0.0 then -x else x
  }

  /** The key a data row is grouped under: the selected column, or its month
      name when the date column is selected. */
  function RowKey(row: Row, index: nat): (r: Result<string, Error>)
    ensures index >= |row| <==> r == Failure(MissingField)
    ensures index < |row| && index != Date.Index() ==> r == Success(row[index])
    ensures index < |row| && index == Date.Index() ==>
              r == match GetMonthName(row[index])
                   case Some(m) => Success(m)
                   case None => Failure(BadDate)
    ensures r.Success? && index == Date.Index() ==> r.value in Abbreviations
  {
    if index >= |row| then Failure(MissingField)
    else if index == Date.Index() then
      match GetMonthName(row[index])
      case None => Failure(BadDate)
      case Some(m) => Success(m)
    else Success(row[index])
  }

  /** What one data row adds: its key and the absolute value of its amount,
      the amount being the last column. The key is looked up before the
      amount is parsed, so a row with both faults reports the key's. */
  function Contribution(row: Row, index: nat, parse: AmountParser): (r: Result<Entry, Error>)
    ensures r.Success? <==> RowKey(row, index).Success? && parse(row[|row| - 1]).Some?
    ensures r.Success? ==> r.value.key == RowKey(row, index).value
    ensures r.Success? ==> r.value.amount >= 0.0
    ensures r.Success? ==>
              var x := parse(row[|row| - 1]).value;
              r.value.amount == x || r.value.amount == -x
    ensures RowKey(row, index).Failure? ==> r == Failure(RowKey(row, index).error)
    ensures RowKey(row, index).Success? && parse(row[|row| - 1]).None? ==> r == Failure(BadAmount)
  {
    var key :- RowKey(row, index);
    match parse(row[|row| - 1])
    case None => Failure(BadAmount)
    case Some(x) => Success(Entry(key, Abs(x)))
  }

  /** The aggregate after the loop has consumed `rows`, or the error of the
      first row that makes it raise. The loop never raises StopIteration, and
      each row adds at most one key. */
  function AggregateRows(rows: seq<Row>, index: nat, parse: AmountParser): (r: Result<seq<Entry>, Error>)
    ensures r.Failure? ==> r.error != MissingHeader
    ensures r.Success? ==> |r.value| <= |rows|
    decreases |rows|
  {
    if |rows| == 0 then Success([])
    else
      var before :- AggregateRows(rows[..|rows| - 1], index, parse);
      var c :- Contribution(rows[|rows| - 1], index, parse);
      Success(Add(before, c.key, c.amount))
  }

  /** `_aggregate_by_key`: the first row is the header, the rest are data. */
  function AggregateByKey(reader: seq<Row>, index: nat, parse: AmountParser): (r: Result<seq<Entry>, Error>)
    ensures |reader| == 0 <==> r == Failure(MissingHeader)
    ensures |reader| == 1 ==> r == Success([])
  {
    if |reader| == 0 then Failure(MissingHeader)
    else AggregateRows(reader[1..], index, parse)
  }

  // ---------------------------------------------------------------------------
  // Reference definitions, stated row by row

  /** Every data row contributes: nothing in the pass raises. */
  predicate WellFormed(rows: seq<Row>, index: nat, parse: AmountParser) {
    forall i | 0 <= i < |rows| :: Contribution(rows[i], index, parse).Success?
  }

  /** Row `row` is grouped under `k`. */
  predicate Carries(row: Row, index: nat, parse: AmountParser, k: string) {
    Contribution(row, index, parse).Success? && Contribution(row, index, parse).value.key == k
  }

  /** Some row of `rows` is grouped under `k`. */
  predicate SeenIn(rows: seq<Row>, index: nat, parse: AmountParser, k: string) {
    exists i | 0 <= i < |rows| :: Carries(rows[i], index, parse, k)
  }

  /** The sum of |amount| over exactly the rows grouped under `k`. */
  function SumFor(rows: seq<Row>, index: nat, parse: AmountParser, k: string): real
    decreases |rows|
  {
    if |rows| == 0 then 0.0
    else
      var last := rows[|rows| - 1];
      SumFor(rows[..|rows| - 1], index, parse, k)
        + (if Carries(last, index, parse, k) then Contribution(last, index, parse).value.amount else 0.0)
  }

  /** The sum of |amount| over the rows that contribute to the grouping on
      column `index`. */
  function SumAll(rows: seq<Row>, index: nat, parse: AmountParser): real
    decreases |rows|
  {
    if |rows| == 0 then 0.0
    else
      var c := Contribution(rows[|rows| - 1], index, parse);
      SumAll(rows[..|rows| - 1], index, parse) + (if c.Success? then c.value.amount else 0.0)
  }

  /** The sum of |amount| over the rows whose last cell parses as an amount,
      whatever column they would be grouped by. */
  function AbsSum(rows: seq<Row>, parse: AmountParser): real
    decreases |rows|
  {
    if |rows| == 0 then 0.0
    else
      var last := rows[|rows| - 1];
      AbsSum(rows[..|rows| - 1], parse)
        + (if |last| > 0 && parse(last[|last| - 1]).Some? then Abs(parse(last[|last| - 1]).value) else 0.0)
  }

  /** When every row contributes, the contributing sum does not depend on the
      grouping column. */
  lemma {:induction false} SumAllIsIndexFree(rows: seq<Row>, index: nat, parse: AmountParser)
    requires WellFormed(rows, index, parse)
    ensures SumAll(rows, index, parse) == AbsSum(rows, parse)
    decreases |rows|
  {
    if |rows| > 0 {
      WellFormedSnoc(rows, index, parse);
      SumAllIsIndexFree(rows[..|rows| - 1], index, parse);
      var last := rows[|rows| - 1];
      assert |last| > 0 && parse(last[|last| - 1]).Some?;
      assert Contribution(last, index, parse).value.amount == Abs(parse(last[|last| - 1]).value);
    }
  }

  /** A non-empty sequence of rows is well formed exactly when its prefix is
      and its last row contributes. */
  lemma WellFormedSnoc(rows: seq<Row>, index: nat, parse: AmountParser)
    requires |rows| > 0
    ensures WellFormed(rows, index, parse) <==>
              WellFormed(rows[..|rows| - 1], index, parse)
              && Contribution(rows[|rows| - 1], index, parse).Success?
  {
    var prefix := rows[..|rows| - 1];
    assert forall i | 0 <= i < |prefix| :: prefix[i] == rows[i];
  }

  /** A key is seen in a non-empty sequence of rows exactly when it is seen
      in the prefix or carried by the last row. */
  lemma SeenInSnoc(rows: seq<Row>, index: nat, parse: AmountParser, k: string)
    requires |rows| > 0
    ensures SeenIn(rows, index, parse, k) <==>
              SeenIn(rows[..|rows| - 1], index, parse, k) || Carries(rows[|rows| - 1], index, parse, k)
  {
    var prefix := rows[..|rows| - 1];
    if SeenIn(rows, index, parse, k) {
      var i :| 0 <= i < |rows| && Carries(rows[i], index, parse, k);
      if i < |prefix| {
        assert prefix[i] == rows[i];
      }
    }
    if SeenIn(prefix, index, parse, k) {
      var i :| 0 <= i < |prefix| && Carries(prefix[i], index, parse, k);
      assert rows[i] == prefix[i];
    }
  }

  // ---------------------------------------------------------------------------
  // The aggregate over the data rows

  /** The pass completes exactly when every data row contributes. */
  lemma {:induction false} AggregateRowsSucceedsIffWellFormed(rows: seq<Row>, index: nat, parse: AmountParser)
    ensures AggregateRows(rows, index, parse).Success? <==> WellFormed(rows, index, parse)
    decreases |rows|
  {
    if |rows| > 0 {
      AggregateRowsSucceedsIffWellFormed(rows[..|rows| - 1], index, parse);
      WellFormedSnoc(rows, index, parse);
    }
  }

  /** A failing pass reports the error of the first row that does not
      contribute, every earlier row having contributed. */
  lemma {:induction false} AggregateRowsFirstError(rows: seq<Row>, index: nat, parse: AmountParser)
    ensures AggregateRows(rows, index, parse).Failure? ==>
      exists j | 0 <= j < |rows| ::
        && Contribution(rows[j], index, parse).Failure?
        && AggregateRows(rows, index, parse).error == Contribution(rows[j], index, parse).error
        && WellFormed(rows[..j], index, parse)
    decreases |rows|
  {
    if |rows| > 0 {
      var prefix := rows[..|rows| - 1];
      AggregateRowsFirstError(prefix, index, parse);
      if AggregateRows(prefix, index, parse).Failure? {
        var j :| 0 <= j < |prefix| && Contribution(prefix[j], index, parse).Failure?
          && AggregateRows(prefix, index, parse).error == Contribution(prefix[j], index, parse).error
          && WellFormed(prefix[..j], index, parse);
        assert rows[j] == prefix[j] && rows[..j] == prefix[..j];
      } else {
        AggregateRowsSucceedsIffWellFormed(prefix, index, parse);
        assert rows[..|rows| - 1] == prefix;
      }
    }
  }

  /** Keys are distinct and are exactly the keys the data rows carry. */
  lemma {:induction false} AggregateRowsKeys(rows: seq<Row>, index: nat, parse: AmountParser)
    requires WellFormed(rows, index, parse)
    ensures AggregateRows(rows, index, parse).Success?
    ensures DistinctKeys(AggregateRows(rows, index, parse).value)
    ensures forall k :: k in Keys(AggregateRows(rows, index, parse).value) <==> SeenIn(rows, index, parse, k)
    decreases |rows|
  {
    AggregateRowsSucceedsIffWellFormed(rows, index, parse);
    if |rows| > 0 {
      var prefix := rows[..|rows| - 1];
      var last := rows[|rows| - 1];
      AggregateRowsKeys(prefix, index, parse);
      var before := AggregateRows(prefix, index, parse).value;
      var c := Contribution(last, index, parse).value;
      AddKeepsKeysDistinct(before, c.key, c.amount);
      forall k
        ensures SeenIn(rows, index, parse, k) <==> SeenIn(prefix, index, parse, k) || c.key == k
      {
        SeenInSnoc(rows, index, parse, k);
      }
    }
  }

  /** Each key's total is the sum of |amount| over exactly the rows grouped
      under it; a key no row carries looks up as zero. */
  lemma {:induction false} AggregateRowsTotals(rows: seq<Row>, index: nat, parse: AmountParser)
    requires WellFormed(rows, index, parse)
    ensures AggregateRows(rows, index, parse).Success?
    ensures forall k :: Lookup(AggregateRows(rows, index, parse).value, k) == SumFor(rows, index, parse, k)
    decreases |rows|
  {
    AggregateRowsSucceedsIffWellFormed(rows, index, parse);
    if |rows| > 0 {
      AggregateRowsTotals(rows[..|rows| - 1], index, parse);
    }
  }

  /** Conservation: the totals add up to the sum of |amount| over all rows. */
  lemma {:induction false} AggregateRowsConserves(rows: seq<Row>, index: nat, parse: AmountParser)
    requires WellFormed(rows, index, parse)
    ensures AggregateRows(rows, index, parse).Success?
    ensures Total(AggregateRows(rows, index, parse).value) == SumAll(rows, index, parse)
    decreases |rows|
  {
    AggregateRowsSucceedsIffWellFormed(rows, index, parse);
    if |rows| > 0 {
      var prefix := rows[..|rows| - 1];
      AggregateRowsConserves(prefix, index, parse);
      var c := Contribution(rows[|rows| - 1], index, parse).value;
      AddTotal(AggregateRows(prefix, index, parse).value, c.key, c.amount);
    }
  }

  /** No total is negative. */
  lemma {:induction false} AggregateRowsNonNegative(rows: seq<Row>, index: nat, parse: AmountParser)
    requires WellFormed(rows, index, parse)
    ensures AggregateRows(rows, index, parse).Success?
    ensures forall i | 0 <= i < |AggregateRows(rows, index, parse).value| ::
              AggregateRows(rows, index, parse).value[i].amount >= 0.0
    decreases |rows|
  {
    AggregateRowsSucceedsIffWellFormed(rows, index, parse);
    if |rows| > 0 {
      var prefix := rows[..|rows| - 1];
      AggregateRowsNonNegative(prefix, index, parse);
      var c := Contribution(rows[|rows| - 1], index, parse).value;
      AddKeepsNonNegative(AggregateRows(prefix, index, parse).value, c.key, c.amount);
    }
  }

  /** The position of the first row of `rows` grouped under `k`, or `|rows|`
      when there is none. */
  function FirstIndex(rows: seq<Row>, index: nat, parse: AmountParser, k: string): (n: nat)
    ensures n <= |rows|
    ensures n < |rows| ==> Carries(rows[n], index, parse, k)
    ensures forall i | 0 <= i < n :: !Carries(rows[i], index, parse, k)
  {
    if |rows| == 0 || Carries(rows[0], index, parse, k) then 0
    else 1 + FirstIndex(rows[1..], index, parse, k)
  }

  /** Keys come in the order of their first appearance in `rows`. */
  predicate InFirstAppearanceOrder(es: seq<Entry>, rows: seq<Row>, index: nat, parse: AmountParser) {
    forall i, j | 0 <= i < j < |es| ::
      FirstIndex(rows, index, parse, es[i].key) < FirstIndex(rows, index, parse, es[j].key)
  }

  /** A key is seen exactly when its first appearance lies inside `rows`. */
  lemma SeenInIffFirstIndex(rows: seq<Row>, index: nat, parse: AmountParser, k: string)
    ensures SeenIn(rows, index, parse, k) <==> FirstIndex(rows, index, parse, k) < |rows|
  {
    if SeenIn(rows, index, parse, k) {
      var w :| 0 <= w < |rows| && Carries(rows[w], index, parse, k);
    }
  }

  /** Appending a row moves no first appearance that was already there; a key
      absent from the prefix first appears no earlier than the new row. */
  lemma FirstIndexSnoc(rows: seq<Row>, index: nat, parse: AmountParser, k: string)
    requires |rows| > 0
    ensures var prefix := rows[..|rows| - 1];
      var p := FirstIndex(prefix, index, parse, k);
      && (p < |prefix| ==> FirstIndex(rows, index, parse, k) == p)
      && (p == |prefix| ==> FirstIndex(rows, index, parse, k) >= |prefix|)
  {
    var prefix := rows[..|rows| - 1];
    var n := FirstIndex(rows, index, parse, k);
    var p := FirstIndex(prefix, index, parse, k);
    if p < |prefix| {
      assert rows[p] == prefix[p];
    } else {
      forall i | 0 <= i < |prefix|
        ensures !Carries(rows[i], index, parse, k)
      {
        assert rows[i] == prefix[i];
      }
    }
  }

  /** One more row keeps the keys in first-appearance order. */
  lemma AddKeepsFirstAppearanceOrder(before: seq<Entry>, rows: seq<Row>, index: nat, parse: AmountParser)
    requires |rows| > 0
    requires InFirstAppearanceOrder(before, rows[..|rows| - 1], index, parse)
    requires forall n | 0 <= n < |before| :: FirstIndex(rows[..|rows| - 1], index, parse, before[n].key) < |rows| - 1
    requires forall k :: FirstIndex(rows[..|rows| - 1], index, parse, k) < |rows| - 1 ==> k in Keys(before)
    requires Contribution(rows[|rows| - 1], index, parse).Success?
    ensures var c := Contribution(rows[|rows| - 1], index, parse).value;
      InFirstAppearanceOrder(Add(before, c.key, c.amount), rows, index, parse)
  {
    var prefix := rows[..|rows| - 1];
    var c := Contribution(rows[|rows| - 1], index, parse).value;
    var r := Add(before, c.key, c.amount);
    AddKeepsPositions(before, c.key, c.amount);
    forall i, j | 0 <= i < j < |r|
      ensures FirstIndex(rows, index, parse, r[i].key) < FirstIndex(rows, index, parse, r[j].key)
    {
      var ki, kj := r[i].key, r[j].key;
      assert i < |before| && ki == before[i].key;
      FirstIndexSnoc(rows, index, parse, ki);
      FirstIndexSnoc(rows, index, parse, kj);
      if j < |before| {
        assert kj == before[j].key;
      } else {
        assert kj == c.key && c.key !in Keys(before);
      }
    }
  }

  /** The aggregate lists its keys in first-appearance order. */
  lemma {:induction false} AggregateRowsFirstOccurrenceOrder(rows: seq<Row>, index: nat, parse: AmountParser)
    requires WellFormed(rows, index, parse)
    ensures AggregateRows(rows, index, parse).Success?
    ensures InFirstAppearanceOrder(AggregateRows(rows, index, parse).value, rows, index, parse)
    decreases |rows|
  {
    AggregateRowsSucceedsIffWellFormed(rows, index, parse);
    if |rows| > 0 {
      var prefix := rows[..|rows| - 1];
      AggregateRowsFirstOccurrenceOrder(prefix, index, parse);
      AggregateRowsKeys(prefix, index, parse);
      var before := AggregateRows(prefix, index, parse).value;
      forall k {
        SeenInIffFirstIndex(prefix, index, parse, k);
      }
      forall n | 0 <= n < |before|
        ensures FirstIndex(prefix, index, parse, before[n].key) < |prefix|
      {
        assert Keys(before)[n] == before[n].key;
      }
      AddKeepsFirstAppearanceOrder(AggregateRows(prefix, index, parse).value, rows, index, parse);
    }
  }

  // ---------------------------------------------------------------------------
  // The whole pass

  /** Everything the aggregator promises, in one statement: it fails only on
      a missing header or a row that does not contribute, and otherwise
      returns distinct keys, in first-appearance order, exactly those the
      data rows carry, with non-negative totals that are the per-key sums of
      |amount| and add up to the sum over all data rows. */
  lemma AggregateByKeyFacts(reader: seq<Row>, index: nat, parse: AmountParser)
    ensures var r := AggregateByKey(reader, index, parse);
      && (|reader| > 0 ==> (r.Success? <==> WellFormed(reader[1..], index, parse)))
      && (|reader| > 0 && r.Failure? ==>
            exists j | 1 <= j < |reader| ::
              && Contribution(reader[j], index, parse).Failure?
              && r.error == Contribution(reader[j], index, parse).error
              && WellFormed(reader[1..j], index, parse))
      && (r.Success? ==>
            var data := reader[1..];
            && WellFormed(data, index, parse)
            && DistinctKeys(r.value)
            && (forall k :: k in Keys(r.value) <==> SeenIn(data, index, parse, k))
            && (forall k :: Lookup(r.value, k) == SumFor(data, index, parse, k))
            && Total(r.value) == SumAll(data, index, parse)
            && (forall i | 0 <= i < |r.value| :: r.value[i].amount >= 0.0)
            && InFirstAppearanceOrder(r.value, data, index, parse))
  {
    if |reader| > 0 {
      var data := reader[1..];
      AggregateRowsSucceedsIffWellFormed(data, index, parse);
      AggregateRowsFirstError(data, index, parse);
      if AggregateRows(data, index, parse).Failure? {
        var j :| 0 <= j < |data| && Contribution(data[j], index, parse).Failure?
          && AggregateRows(data, index, parse).error == Contribution(data[j], index, parse).error
          && WellFormed(data[..j], index, parse);
        assert reader[j + 1] == data[j] && reader[1..j + 1] == data[..j];
      }
      if WellFormed(data, index, parse) {
        AggregateRowsKeys(data, index, parse);
        AggregateRowsTotals(data, index, parse);
        AggregateRowsConserves(data, index, parse);
        AggregateRowsNonNegative(data, index, parse);
        AggregateRowsFirstOccurrenceOrder(data, index, parse);
      }
    }
  }

  /** Regrouping conserves the grand total: two successful passes over the
      same reader, on any two columns, have the same sum of totals, the sum
      of |amount| over the data rows. */
  lemma RegroupingKeepsGrandTotal(reader: seq<Row>, i1: nat, i2: nat, parse: AmountParser)
    ensures var r1, r2 := AggregateByKey(reader, i1, parse), AggregateByKey(reader, i2, parse);
      r1.Success? && r2.Success? ==>
        && Total(r1.value) == AbsSum(reader[1..], parse)
        && Total(r1.value) == Total(r2.value)
  {
    var r1, r2 := AggregateByKey(reader, i1, parse), AggregateByKey(reader, i2, parse);
    if r1.Success? && r2.Success? {
      AggregateByKeyFacts(reader, i1, parse);
      AggregateByKeyFacts(reader, i2, parse);
      SumAllIsIndexFree(reader[1..], i1, parse);
      SumAllIsIndexFree(reader[1..], i2, parse);
    }
  }

  /** The header row is consumed and never contributes: replacing it changes
      nothing. */
  lemma HeaderIsIgnored(h1: Row, h2: Row, rows: seq<Row>, index: nat, parse: AmountParser)
    ensures AggregateByKey([h1] + rows, index, parse) == AggregateByKey([h2] + rows, index, parse)
  {
    assert ([h1] + rows)[1..] == rows == ([h2] + rows)[1..];
  }

  /** Outside the date grouping, a key is exactly a selected-column value of
      some data row. */
  lemma PlainKeysAreFieldValues(rows: seq<Row>, index: nat, parse: AmountParser)
    requires index != Date.Index()
    requires WellFormed(rows, index, parse)
    ensures forall k :: SeenIn(rows, index, parse, k) <==>
              exists i | 0 <= i < |rows| :: index < |rows[i]| && rows[i][index] == k
  {
    forall k | exists i | 0 <= i < |rows| :: index < |rows[i]| && rows[i][index] == k
      ensures SeenIn(rows, index, parse, k)
    {
      var i :| 0 <= i < |rows| && index < |rows[i]| && rows[i][index] == k;
      assert Carries(rows[i], index, parse, k);
    }
  }

  /** In the date grouping, a key is exactly the month name of some data
      row's date, and so always an entry of the month table. */
  lemma MonthKeysAreMonthNames(rows: seq<Row>, parse: AmountParser)
    requires WellFormed(rows, Date.Index(), parse)
    ensures forall k :: SeenIn(rows, Date.Index(), parse, k) <==>
              exists i | 0 <= i < |rows| :: |rows[i]| > 0 && GetMonthName(rows[i][0]) == Some(k)
    ensures forall k :: SeenIn(rows, Date.Index(), parse, k) ==> k in Abbreviations
  {
    forall k | exists i | 0 <= i < |rows| :: |rows[i]| > 0 && GetMonthName(rows[i][0]) == Some(k)
      ensures SeenIn(rows, Date.Index(), parse, k)
    {
      var i :| 0 <= i < |rows| && |rows[i]| > 0 && GetMonthName(rows[i][0]) == Some(k);
      assert Carries(rows[i], Date.Index(), parse, k);
    }
  }

  /** The data rows of a reader, indexed from 1 as in the reader itself. */
  lemma ReaderRows(reader: seq<Row>, index: nat, parse: AmountParser)
    requires |reader| > 0
    ensures WellFormed(reader[1..], index, parse) <==>
              forall i | 1 <= i < |reader| :: Contribution(reader[i], index, parse).Success?
    ensures forall k :: SeenIn(reader[1..], index, parse, k) <==>
              exists i | 1 <= i < |reader| :: Carries(reader[i], index, parse, k)
  {
    var data := reader[1..];
    assert forall i | 1 <= i < |reader| :: reader[i] == data[i - 1];
    forall k | SeenIn(data, index, parse, k)
      ensures exists i | 1 <= i < |reader| :: Carries(reader[i], index, parse, k)
    {
      var i :| 0 <= i < |data| && Carries(data[i], index, parse, k);
      assert reader[i + 1] == data[i];
    }
  }

  // ---------------------------------------------------------------------------
  // The public groupings

  /** `aggregate_by_month`: totals per month name, so dates of the same month
      in different years share a key. */
  function AggregateByMonth(reader: seq<Row>, parse: AmountParser): (r: Result<seq<Entry>, Error>)
    ensures r.Success? <==> |reader| > 0 && WellFormed(reader[1..], Date.Index(), parse)
    ensures r.Failure? ==> r == AggregateByKey(reader, Date.Index(), parse)
    ensures r.Success? ==>
              && DistinctKeys(r.value)
              && InFirstAppearanceOrder(r.value, reader[1..], Date.Index(), parse)
              && Total(r.value) == SumAll(reader[1..], Date.Index(), parse)
              && Total(r.value) == AbsSum(reader[1..], parse)
              && (forall i | 0 <= i < |r.value| :: r.value[i].amount >= 0.0)
    ensures r.Success? ==> forall k :: k in Keys(r.value) <==>
              exists i | 1 <= i < |reader| :: |reader[i]| > 0 && GetMonthName(reader[i][0]) == Some(k)
    ensures r.Success? ==> forall k :: k in Keys(r.value) ==> k in Abbreviations
    ensures r.Success? ==> forall k :: Lookup(r.value, k) == SumFor(reader[1..], Date.Index(), parse, k)
  {
    AggregateByKeyFacts(reader, Date.Index(), parse);
    var r := AggregateByKey(reader, Date.Index(), parse);
    if r.Success? then
      SumAllIsIndexFree(reader[1..], Date.Index(), parse);
      MonthKeysAreMonthNames(reader[1..], parse);
      ReaderRows(reader, Date.Index(), parse);
      r
    else r
  }

  /** Shared by the three groupings on a plain column. */
  function AggregateByColumn(reader: seq<Row>, field: Field, parse: AmountParser): (r: Result<seq<Entry>, Error>)
    requires field != Date
    ensures r.Success? <==> |reader| > 0 && WellFormed(reader[1..], field.Index(), parse)
    ensures r.Failure? ==> r == AggregateByKey(reader, field.Index(), parse)
    ensures r.Success? ==>
              && DistinctKeys(r.value)
              && InFirstAppearanceOrder(r.value, reader[1..], field.Index(), parse)
              && Total(r.value) == SumAll(reader[1..], field.Index(), parse)
              && Total(r.value) == AbsSum(reader[1..], parse)
              && (forall i | 0 <= i < |r.value| :: r.value[i].amount >= 0.0)
    ensures r.Success? ==> forall k :: k in Keys(r.value) <==>
              exists i | 1 <= i < |reader| :: field.Index() < |reader[i]| && reader[i][field.Index()] == k
    ensures r.Success? ==> forall k :: Lookup(r.value, k) == SumFor(reader[1..], field.Index(), parse, k)
  {
    AggregateByKeyFacts(reader, field.Index(), parse);
    var r := AggregateByKey(reader, field.Index(), parse);
    if r.Success? then
      SumAllIsIndexFree(reader[1..], field.Index(), parse);
      ReaderRows(reader, field.Index(), parse);
      assert forall i | 1 <= i < |reader| :: field.Index() < |reader[i]| by {
        forall i | 1 <= i < |reader|
          ensures field.Index() < |reader[i]|
        {
          assert Contribution(reader[i], field.Index(), parse).Success?;
        }
      }
      r
    else r
  }

  /** `aggregate_by_account`: totals per account. */
  function AggregateByAccount(reader: seq<Row>, parse: AmountParser): (r: Result<seq<Entry>, Error>)
    ensures r.Success? <==> |reader| > 0 && WellFormed(reader[1..], 1, parse)
    ensures r.Failure? ==> r == AggregateByKey(reader, 1, parse)
    ensures r.Success? ==>
              && DistinctKeys(r.value)
              && InFirstAppearanceOrder(r.value, reader[1..], 1, parse)
              && Total(r.value) == SumAll(reader[1..], 1, parse)
              && Total(r.value) == AbsSum(reader[1..], parse)
              && (forall i | 0 <= i < |r.value| :: r.value[i].amount >= 0.0)
    ensures r.Success? ==> forall k :: k in Keys(r.value) <==>
              exists i | 1 <= i < |reader| :: 1 < |reader[i]| && reader[i][1] == k
    ensures r.Success? ==> forall k :: Lookup(r.value, k) == SumFor(reader[1..], 1, parse, k)
  {
    AggregateByColumn(reader, Account, parse)
  }

  /** `aggregate_by_transaction`: totals per description. */
  function AggregateByTransaction(reader: seq<Row>, parse: AmountParser): (r: Result<seq<Entry>, Error>)
    ensures r.Success? <==> |reader| > 0 && WellFormed(reader[1..], 2, parse)
    ensures r.Failure? ==> r == AggregateByKey(reader, 2, parse)
    ensures r.Success? ==>
              && DistinctKeys(r.value)
              && InFirstAppearanceOrder(r.value, reader[1..], 2, parse)
              && Total(r.value) == SumAll(reader[1..], 2, parse)
              && Total(r.value) == AbsSum(reader[1..], parse)
              && (forall i | 0 <= i < |r.value| :: r.value[i].amount >= 0.0)
    ensures r.Success? ==> forall k :: k in Keys(r.value) <==>
              exists i | 1 <= i < |reader| :: 2 < |reader[i]| && reader[i][2] == k
    ensures r.Success? ==> forall k :: Lookup(r.value, k) == SumFor(reader[1..], 2, parse, k)
  {
    AggregateByColumn(reader, Description, parse)
  }

  /** `aggregate_by_tags`: totals per tag string. */
  function AggregateByTags(reader: seq<Row>, parse: AmountParser): (r: Result<seq<Entry>, Error>)
    ensures r.Success? <==> |reader| > 0 && WellFormed(reader[1..], 4, parse)
    ensures r.Failure? ==> r == AggregateByKey(reader, 4, parse)
    ensures r.Success? ==>
              && DistinctKeys(r.value)
              && InFirstAppearanceOrder(r.value, reader[1..], 4, parse)
              && Total(r.value) == SumAll(reader[1..], 4, parse)
              && Total(r.value) == AbsSum(reader[1..], parse)
              && (forall i | 0 <= i < |r.value| :: r.value[i].amount >= 0.0)
    ensures r.Success? ==> forall k :: k in Keys(r.value) <==>
              exists i | 1 <= i < |reader| :: 4 < |reader[i]| && reader[i][4] == k
    ensures r.Success? ==> forall k :: Lookup(r.value, k) == SumFor(reader[1..], 4, parse, k)
  {
    AggregateByColumn(reader, Tags, parse)
  }

  /** `aggregate_by_category`: the category aggregate reordered by total,
      largest first, ties in first-appearance order. It holds the same
      entries as the plain aggregate, fails exactly when that fails, and
      stores the same total under every key. */
  function AggregateByCategory(reader: seq<Row>, parse: AmountParser): (r: Result<seq<Entry>, Error>)
    ensures var plain := AggregateByKey(reader, Category.Index(), parse);
      && (r.Failure? <==> plain.Failure?)
      && (r.Failure? ==> r.error == plain.error)
      && (r.Success? ==>
            && SortedDescending(r.value)
            && multiset(r.value) == multiset(plain.value)
            && DistinctKeys(r.value)
            && (forall k :: Lookup(r.value, k) == Lookup(plain.value, k))
            && (forall v :: WithAmount(r.value, v) == WithAmount(plain.value, v))
            && Total(r.value) == AbsSum(reader[1..], parse))
  {
    var plain := AggregateByKey(reader, Category.Index(), parse);
    match plain
    case Failure(e) => Failure(e)
    case Success(entries) =>
      AggregateByKeyFacts(reader, Category.Index(), parse);
      var sorted := SortDescending(entries);
      SortKeepsKeysDistinct(entries);
      SortKeepsTotal(entries);
      SumAllIsIndexFree(reader[1..], Category.Index(), parse);
      assert forall k :: Lookup(sorted, k) == Lookup(entries, k) by {
        forall k
          ensures Lookup(sorted, k) == Lookup(entries, k)
        {
          PermutationKeepsLookup(entries, sorted, k);
        }
      }
      assert forall v :: WithAmount(sorted, v) == WithAmount(entries, v) by {
        forall v
          ensures WithAmount(sorted, v) == WithAmount(entries, v)
        {
          SortIsStable(entries, v);
        }
      }
      Success(sorted)
  }
}

=== FILE: months.dfy ===
/** The date key: `YYYY-MM-DD` is reduced to the abbreviated English name of
    its month, looked up in a fixed table shaped like Python's
    `calendar.month_abbr` (thirteen entries, entry 0 the empty string). */
module Months {
  import opened Outcomes
  import opened Text

  const Abbreviations: seq<string> :=
    ["", "Jan", "Feb", "Mar", "Apr", "May", "Jun",
     "Jul", "Aug", "Sep", "Oct", "Nov", "Dec"]

  /** `calendar.month_abbr[m]`: None where Python raises IndexError. */
  function MonthAbbr(m: nat): (r: Option<string>)
    ensures r.Some? <==> m <= 12
    ensures m == 0 ==> r == Some("")
    ensures 1 <= m <= 12 ==> r.Some? && |r.value| == 3
  {
    if m < |Abbreviations| then Some(Abbreviations[m]) else None
  }

  /** Distinct month numbers have distinct abbreviations. */
  lemma MonthAbbrInjective(m1: nat, m2: nat)
    requires m1 <= 12 && m2 <= 12
    ensures MonthAbbr(m1) == MonthAbbr(m2) <==> m1 == m2
  {
  }

  /** The month name of a date string: None where Python's
      `calendar.month_abbr[int(date.split("-")[1])]` raises, because there is
      no second piece, the piece is not a number, or the number exceeds 12. */
  function GetMonthName(date: string): (r: Option<string>)
    ensures r.Some? ==> r.value in Abbreviations
    ensures r.Some? <==>
      var parts := Split(date, '-');
      |parts| >= 2 && ParseNat(parts[1]).Some? && ParseNat(parts[1]).value <= 12
  {
    var parts := Split(date, '-');
    if |parts| < 2 then None
    else
      match ParseNat(parts[1])
      case None => None
      case Some(m) => MonthAbbr(m)
  }

  /** The date key depends on the month piece alone: the year before it and
      whatever follows it do not matter. */
  lemma MonthNameIgnoresYearAndDay(y1: string, y2: string, mm: string, d1: string, d2: string)
    requires '-' !in y1 && '-' !in y2 && '-' !in mm
    ensures GetMonthName(y1 + "-" + mm + "-" + d1) == GetMonthName(y2 + "-" + mm + "-" + d2)
  {
    MonthPieceOfDate(y1, mm, d1);
    MonthPieceOfDate(y2, mm, d2);
  }

  lemma MonthPieceOfDate(y: string, mm: string, d: string)
    requires '-' !in y && '-' !in mm
    ensures |Split(y + "-" + mm + "-" + d, '-')| >= 2
    ensures Split(y + "-" + mm + "-" + d, '-')[1] == mm
  {
    assert y + "-" + mm + "-" + d == y + ['-'] + (mm + ['-'] + d);
    SplitAtFirstSeparator(y, '-', mm + ['-'] + d);
    SplitAtFirstSeparator(mm, '-', d);
  }

  /** An ISO date `YYYY-MM-DD` with month 0..12 gets that month's table
      entry: the abbreviation for 1..12, the empty string for "00". */
  lemma IsoDateMonthName(y: string, m: nat, d: string)
    requires '-' !in y && m <= 12
    ensures GetMonthName(y + "-" + Pad2(m) + "-" + d) == Some(Abbreviations[m])
  {
    assert '-' !in Pad2(m);
    MonthPieceOfDate(y, Pad2(m), d);
    ParsePad2(m);
  }

  /** Two ISO dates share a key exactly when their months are equal, whatever
      their years and days. */
  lemma IsoDatesShareKeyIffSameMonth(y1: string, m1: nat, d1: string, y2: string, m2: nat, d2: string)
    requires '-' !in y1 && '-' !in y2
    requires m1 <= 12 && m2 <= 12
    ensures GetMonthName(y1 + "-" + Pad2(m1) + "-" + d1) == GetMonthName(y2 + "-" + Pad2(m2) + "-" + d2)
            <==> m1 == m2
  {
    IsoDateMonthName(y1, m1, d1);
    IsoDateMonthName(y2, m2, d2);
    MonthAbbrInjective(m1, m2);
  }
}

=== FILE: outcomes.dfy ===
/** Python's exceptions, as values. `Option` is a lookup or parse that may
    find nothing; `Result` is a step that either yields a value or names the
    exception that would have escaped it. `Result` supplies the three members
    Dafny's `:-` operator needs, so a failing step ends the computation that
    contains it and passes its error on unchanged, as an uncaught exception
    does. */
module Outcomes {

  datatype Option<+T> = None | Some(value: T)

  datatype Result<+R, +E> = Success(value: R) | Failure(error: E) {

    predicate IsFailure() {
      Failure?
    }

    function PropagateFailure<U>(): Result<U, E>
      requires Failure?
    {
      Failure(error)
    }

    function Extract(): R
      requires Success?
    {
      value
    }
  }
}

=== FILE: ranking.dfy ===
/** Ordering aggregate entries by total, largest first, as
    `sorted(d.items(), key=lambda item: item[1], reverse=True)` does. Python's
    sort is stable even with `reverse=True`, so entries with equal totals keep
    their original relative order. */
module Ranking {
  import opened Assoc

  predicate SortedDescending(s: seq<Entry>) {
    forall i, j | 0 <= i < j < |s| :: s[i].amount >= s[j].amount
  }

  /** The entries of `s` whose amount is exactly `v`, in their order in `s`. */
  function WithAmount(s: seq<Entry>, v: real): seq<Entry> {
    if |s| == 0 then []
    else (if s[0].amount == v then [s[0]] else []) + WithAmount(s[1..], v)
  }

  /** Where `x` goes in a descending sequence: after every entry at least as
      large, before the first strictly smaller one. */
  function InsertPos(s: seq<Entry>, x: Entry): (p: nat)
    ensures p <= |s|
    ensures forall i | 0 <= i < p :: s[i].amount >= x.amount
    ensures p < |s| ==> s[p].amount < x.amount
  {
    if |s| == 0 || s[0].amount < x.amount then 0 else 1 + InsertPos(s[1..], x)
  }

  function Insert(s: seq<Entry>, x: Entry): seq<Entry> {
    var p := InsertPos(s, x);
    s[..p] + [x] + s[p..]
  }

  /** Position by position: `x` sits at the insertion point, entries before
      it are unmoved, entries after it shift one place right. */
  lemma InsertShape(s: seq<Entry>, x: Entry)
    ensures var p := InsertPos(s, x);
      var r := Insert(s, x);
      && |r| == |s| + 1
      && r[p] == x
      && (forall i | 0 <= i < p :: r[i] == s[i])
      && (forall i | p < i < |r| :: r[i] == s[i - 1])
  {
  }

  /** The stable descending sort: each entry in turn is inserted behind all
      entries already placed whose total is at least its own. */
  function SortDescending(s: seq<Entry>): (r: seq<Entry>)
    ensures |r| == |s|
    ensures SortedDescending(r)
    ensures multiset(r) == multiset(s)
  {
    if |s| == 0 then []
    else
      var prev := SortDescending(s[..|s| - 1]);
      var x := s[|s| - 1];
      InsertKeepsSorted(prev, x);
      InsertAddsToMultiset(prev, x);
      MultisetSnoc(s);
      Insert(prev, x)
  }

  lemma MultisetSnoc(s: seq<Entry>)
    requires |s| > 0
    ensures multiset(s) == multiset(s[..|s| - 1]) + multiset{s[|s| - 1]}
  {
    assert s == s[..|s| - 1] + [s[|s| - 1]];
  }

  lemma InsertKeepsSorted(s: seq<Entry>, x: Entry)
    requires SortedDescending(s)
    ensures SortedDescending(Insert(s, x))
  {
    var p := InsertPos(s, x);
    var r := Insert(s, x);
    InsertShape(s, x);
    forall i, j | 0 <= i < j < |r|
      ensures r[i].amount >= r[j].amount
    {
      if j < p {
        assert r[i] == s[i] && r[j] == s[j];
      } else if j == p {
        assert r[i] == s[i];
      } else if i < p {
        assert r[i] == s[i] && r[j] == s[j - 1];
      } else if i == p {
        assert r[j] == s[j - 1];
        assert s[p].amount >= s[j - 1].amount;
      } else {
        assert r[i] == s[i - 1] && r[j] == s[j - 1];
      }
    }
  }

  lemma InsertAddsToMultiset(s: seq<Entry>, x: Entry)
    ensures multiset(Insert(s, x)) == multiset(s) + multiset{x}
  {
    var p := InsertPos(s, x);
    assert s == s[..p] + s[p..];
  }

  lemma {:induction false} WithAmountAppend(a: seq<Entry>, b: seq<Entry>, v: real)
    ensures WithAmount(a + b, v) == WithAmount(a, v) + WithAmount(b, v)
  {
    if |a| > 0 {
      assert (a + b)[0] == a[0];
      assert (a + b)[1..] == a[1..] + b;
      WithAmountAppend(a[1..], b, v);
      assert [a[0]] + a[1..] == a;
    } else {
      assert a + b == b;
    }
  }

  lemma WithAmountSingle(x: Entry, v: real)
    ensures WithAmount([x], v) == if x.amount == v then [x] else []
  {
    assert [x][1..] == [];
  }

  lemma {:induction false} WithAmountNone(s: seq<Entry>, v: real)
    requires forall i | 0 <= i < |s| :: s[i].amount != v
    ensures WithAmount(s, v) == []
  {
    if |s| > 0 {
      WithAmountNone(s[1..], v);
    }
  }

  /** Inserting `x` appends it to the run of entries with its own amount and
      leaves every other run unchanged. */
  lemma InsertWithAmount(s: seq<Entry>, x: Entry, v: real)
    requires SortedDescending(s)
    ensures WithAmount(Insert(s, x), v) ==
            WithAmount(s, v) + (if x.amount == v then [x] else [])
  {
    var p := InsertPos(s, x);
    TailBelowInsertPoint(s, x);
    WithAmountAroundX(s[..p], s[p..], x, v);
    assert s[..p] + s[p..] == s;
  }

  /** The run for `v` of `lo + [x] + hi`, when nothing in `hi` equals `x`. */
  lemma WithAmountAroundX(lo: seq<Entry>, hi: seq<Entry>, x: Entry, v: real)
    requires forall i | 0 <= i < |hi| :: hi[i].amount != x.amount
    ensures WithAmount(lo + [x] + hi, v) ==
            WithAmount(lo + hi, v) + (if x.amount == v then [x] else [])
  {
    WithAmountAppend(lo + [x], hi, v);
    WithAmountAppend(lo, [x], v);
    WithAmountAppend(lo, hi, v);
    WithAmountSingle(x, v);
    if x.amount == v {
      WithAmountNone(hi, v);
    }
  }

  /** Everything from the insertion point on is strictly smaller than `x`. */
  lemma TailBelowInsertPoint(s: seq<Entry>, x: Entry)
    requires SortedDescending(s)
    ensures var hi := s[InsertPos(s, x)..];
      forall i | 0 <= i < |hi| :: hi[i].amount != x.amount
  {
    var p := InsertPos(s, x);
    var hi := s[p..];
    forall i | 0 <= i < |hi|
      ensures hi[i].amount < x.amount
    {
      assert hi[i] == s[p + i];
      if i > 0 {
        assert s[p].amount >= s[p + i].amount;
      }
    }
  }

  /** Stability: for every total, the entries carrying it appear in the
      sorted output in the same relative order as in the input. */
  lemma {:induction false} SortIsStable(s: seq<Entry>, v: real)
    ensures WithAmount(SortDescending(s), v) == WithAmount(s, v)
  {
    if |s| > 0 {
      var prefix := s[..|s| - 1];
      var x := s[|s| - 1];
      var sorted := SortDescending(prefix);
      assert SortDescending(s) == Insert(sorted, x);
      SortIsStable(prefix, v);
      InsertWithAmount(sorted, x, v);
      WithAmountSnoc(s, v);
    }
  }

  lemma WithAmountSnoc(s: seq<Entry>, v: real)
    requires |s| > 0
    ensures var x := s[|s| - 1];
      WithAmount(s, v) == WithAmount(s[..|s| - 1], v) + (if x.amount == v then [x] else [])
  {
    var x := s[|s| - 1];
    assert s == s[..|s| - 1] + [x];
    WithAmountAppend(s[..|s| - 1], [x], v);
    WithAmountSingle(x, v);
  }

  /** Sorting moves totals around but keeps their sum. */
  lemma {:induction false} SortKeepsTotal(s: seq<Entry>)
    ensures Total(SortDescending(s)) == Total(s)
  {
    if |s| > 0 {
      var prefix := s[..|s| - 1];
      var x := s[|s| - 1];
      SortKeepsTotal(prefix);
      InsertKeepsTotal(SortDescending(prefix), x);
      LastSplit(s);
      TotalSnoc(prefix, x);
    }
  }

  lemma LastSplit(s: seq<Entry>)
    requires |s| > 0
    ensures s == s[..|s| - 1] + [s[|s| - 1]]
  {
  }

  lemma InsertKeepsTotal(t: seq<Entry>, x: Entry)
    ensures Total(Insert(t, x)) == Total(t) + x.amount
  {
    var p := InsertPos(t, x);
    assert t == t[..p] + t[p..];
    TotalAppend(t[..p] + [x], t[p..]);
    TotalAppend(t[..p], [x]);
    TotalAppend(t[..p], t[p..]);
  }

  /** Sorting a dict's items keeps their keys distinct, so rebuilding a dict
      from the sorted items loses nothing. */
  lemma {:induction false} SortKeepsKeysDistinct(s: seq<Entry>)
    requires DistinctKeys(s)
    ensures DistinctKeys(SortDescending(s))
  {
    if |s| > 0 {
      var prefix := s[..|s| - 1];
      var x := s[|s| - 1];
      SortKeepsKeysDistinct(prefix);
      var t := SortDescending(prefix);
      forall i | 0 <= i < |t|
        ensures t[i].key != x.key
      {
        assert t[i] in multiset(prefix);
      }
      InsertKeepsKeysDistinct(t, x);
    }
  }

  lemma InsertKeepsKeysDistinct(t: seq<Entry>, x: Entry)
    requires DistinctKeys(t)
    requires forall i | 0 <= i < |t| :: t[i].key != x.key
    ensures DistinctKeys(Insert(t, x))
  {
    var p := InsertPos(t, x);
    var r := Insert(t, x);
    InsertShape(t, x);
    forall i, j | 0 <= i < j < |r|
      ensures r[i].key != r[j].key
    {
      if j < p {
        assert r[i] == t[i] && r[j] == t[j];
      } else if j == p {
        assert r[i] == t[i];
      } else if i < p {
        assert r[i] == t[i] && r[j] == t[j - 1];
      } else if i == p {
        assert r[j] == t[j - 1];
      } else {
        assert r[i] == t[i - 1] && r[j] == t[j - 1];
      }
    }
  }

  /** A permutation of a dict's items with distinct keys stores the same total
      under every key. */
  lemma PermutationKeepsLookup(s: seq<Entry>, r: seq<Entry>, k: string)
    requires DistinctKeys(s) && DistinctKeys(r)
    requires multiset(s) == multiset(r)
    ensures Lookup(r, k) == Lookup(s, k)
  {
    if a :| 0 <= a < |s| && s[a].key == k {
      assert s[a] in multiset(r);
      var b :| 0 <= b < |r| && r[b] == s[a];
      LookupFindsEntry(s, a);
      LookupFindsEntry(r, b);
    } else {
      forall b | 0 <= b < |r|
        ensures r[b].key != k
      {
        assert r[b] in multiset(s);
      }
      LookupAbsent(s, k);
      LookupAbsent(r, k);
    }
  }
}

=== FILE: text.dfy ===
/** The two pieces of string handling the date key needs: splitting on a
    separator character, as Python's `str.split(sep)` does, and reading a
    decimal integer, as `int(s)` does for plain ASCII digit strings. */
module Text {
  import opened Outcomes

  /** Splits `s` at every occurrence of `sep`; empty pieces are kept, so the
      result always has one more piece than `s` has separators. */
  function Split(s: string, sep: char): (parts: seq<string>)
    ensures |parts| >= 1
    ensures forall i | 0 <= i < |parts| :: sep !in parts[i]
  {
    if |s| == 0 then [""]
    else
      var rest := Split(s[1..], sep);
      if s[0] == sep then [""] + rest
      else [[s[0]] + rest[0]] + rest[1..]
  }

  /** Glues pieces back together with `sep` between neighbours. */
  function Join(parts: seq<string>, sep: char): string
    requires |parts| >= 1
  {
    if |parts| == 1 then parts[0]
    else parts[0] + [sep] + Join(parts[1..], sep)
  }

  /** Splitting and joining again gives back the original string. */
  lemma {:induction false} JoinSplit(s: string, sep: char)
    ensures Join(Split(s, sep), sep) == s
  {
    if |s| > 0 {
      JoinSplit(s[1..], sep);
      var rest := Split(s[1..], sep);
      if s[0] == sep {
        assert Join([""] + rest, sep) == [sep] + Join(rest, sep);
      } else {
        var parts := [[s[0]] + rest[0]] + rest[1..];
        if |rest| == 1 {
          assert Join(parts, sep) == [s[0]] + rest[0];
        } else {
          assert parts[1..] == rest[1..];
          assert Join(rest, sep) == rest[0] + [sep] + Join(rest[1..], sep);
        }
      }
      assert s == [s[0]] + s[1..];
    }
  }

  /** A string without the separator is a single piece. */
  lemma {:induction false} SplitWithoutSeparator(a: string, sep: char)
    requires sep !in a
    ensures Split(a, sep) == [a]
  {
    if |a| > 0 {
      SplitWithoutSeparator(a[1..], sep);
      assert a == [a[0]] + a[1..];
    }
  }

  /** A separator-free prefix followed by the separator is split off as the
      first piece. */
  lemma {:induction false} SplitAtFirstSeparator(a: string, sep: char, b: string)
    requires sep !in a
    ensures Split(a + [sep] + b, sep) == [a] + Split(b, sep)
  {
    var s := a + [sep] + b;
    if |a| == 0 {
      assert s[1..] == b;
    } else {
      assert s[1..] == a[1..] + [sep] + b;
      SplitAtFirstSeparator(a[1..], sep, b);
      assert [a[0]] + a[1..] == a;
    }
  }

  /** Joining separator-free pieces and splitting again gives back the pieces. */
  lemma {:induction false} SplitJoin(parts: seq<string>, sep: char)
    requires |parts| >= 1
    requires forall i | 0 <= i < |parts| :: sep !in parts[i]
    ensures Split(Join(parts, sep), sep) == parts
  {
    if |parts| == 1 {
      SplitWithoutSeparator(parts[0], sep);
    } else {
      SplitJoin(parts[1..], sep);
      SplitAtFirstSeparator(parts[0], sep, Join(parts[1..], sep));
      assert [parts[0]] + parts[1..] == parts;
    }
  }

  predicate IsDigit(c: char) {
    '0' <= c <= '9'
  }

  predicate AllDigits(s: string) {
    forall i | 0 <= i < |s| :: IsDigit(s[i])
  }

  function DigitValue(c: char): nat
    requires IsDigit(c)
  {
    (c as int - '0' as int) as nat
  }

  function DigitChar(d: nat): (c: char)
    requires d < 10
    ensures IsDigit(c) && DigitValue(c) == d
  {
    ('0' as int + d) as char
  }

  /** The value of a digit string read in base ten, most significant digit first. */
  function DigitsValue(s: string): nat
    requires AllDigits(s)
  {
    if |s| == 0 then 0
    else DigitsValue(s[..|s| - 1]) * 10 + DigitValue(s[|s| - 1])
  }

  /** The default of `sys.get_int_max_str_digits()` (CPython 3.11 and
      later): `int()` raises ValueError on a decimal string with more digits
      than this, leading zeros included. */
  const MaxIntDigits: nat := 4300

  /** `int(s)` on a string of ASCII digits no longer than the digit limit;
      any other string is refused. */
  function ParseNat(s: string): (r: Option<nat>)
    ensures r.Some? <==> 0 < |s| <= MaxIntDigits && AllDigits(s)
  {
    if 0 < |s| <= MaxIntDigits && AllDigits(s) then Some(DigitsValue(s)) else None
  }

  /** The shortest decimal rendering of `n`. */
  function Digits(n: nat): (s: string)
    ensures |s| > 0 && AllDigits(s)
  {
    if n < 10 then [DigitChar(n)] else Digits(n / 10) + [DigitChar(n % 10)]
  }

  /** The value of a rendered number is the number. */
  lemma {:induction false} DigitsValueOfDigits(n: nat)
    ensures DigitsValue(Digits(n)) == n
  {
    if n < 10 {
      var s := Digits(n);
      assert s[..0] == [];
      assert DigitsValue(s) == DigitValue(s[0]);
    } else {
      var s := Digits(n);
      assert s[..|s| - 1] == Digits(n / 10);
      DigitsValueOfDigits(n / 10);
    }
  }

  /** Reading a rendered number gives the number back, unless its rendering
      is longer than the digit limit. */
  lemma ParseDigits(n: nat)
    ensures ParseNat(Digits(n)) == if |Digits(n)| <= MaxIntDigits then Some(n) else None
  {
    DigitsValueOfDigits(n);
  }

  /** A leading zero does not change the value read, so "03" and "3" agree;
      but it counts toward the digit limit. */
  lemma {:induction false} LeadingZero(s: string)
    requires AllDigits(s)
    ensures AllDigits("0" + s) && DigitsValue("0" + s) == DigitsValue(s)
    ensures 0 < |s| < MaxIntDigits ==> ParseNat("0" + s) == ParseNat(s)
    ensures |s| >= MaxIntDigits ==> ParseNat("0" + s) == None
  {
    var z := "0" + s;
    if |s| > 0 {
      assert z[..|z| - 1] == "0" + s[..|s| - 1];
      LeadingZero(s[..|s| - 1]);
    } else {
      assert z[..0] == [];
    }
  }

  /** Two-digit, zero-padded rendering, as the month field of an ISO date. */
  function Pad2(n: nat): (s: string)
    requires n < 100
    ensures |s| == 2 && AllDigits(s)
  {
    [DigitChar(n / 10), DigitChar(n % 10)]
  }

  lemma ParsePad2(n: nat)
    requires n < 100
    ensures ParseNat(Pad2(n)) == Some(n)
  {
    var s := Pad2(n);
    assert s[..1][..0] == [];
    assert DigitsValue(s[..1]) == n / 10;
    assert s[..|s| - 1] == s[..1];
  }
}
